=== FILE: README.md ===
# Bocatto storefront: cart, role gate and navbar, in Dafny

This project models the browser-side state machine of the Bocatto food-ordering
storefront (`js/app.js`): the shopping cart (`carrito`) with its add, "+", "-",
remove and "Vaciar" operations and the totals that drive the navbar badge; the
role gate that lets only a logged-in customer (`cliente`) add to the cart or go to
the checkout page; the navbar table that shows each role its buttons; and the
simulated login that turns credentials into the `admin` or `cliente` role.

Modules, one per concern:

- `Roles` (`roles.dfy`): the role as the page stores it. The page holds the role
  as a free string, so besides `Visitante`, `Cliente` and `Admin` there is
  `Unrecognised(raw)` for any other stored value. `PageRole` is the subset the page
  can actually hold: an unrecognised role is never empty and never spells a known
  name. The navbar, the gates and the page state take only these roles.
- `Login` (`login.dfy`): JavaScript `trim` and lower-casing of the e-mail, and the
  admin rule.
- `Navbar` (`navbar.dfy`): `actualizarNavbar` over a page that may lack some buttons.
- `Cart` (`cart.dfy`): cart lines, merge by name, index-addressed updates, and the
  invariants (unique names, quantities at least 1, order kept).
- `Totals` (`totals.dfy`): item count and money total, and the `renderCarrito` pass.
- `Gate` (`gate.dfy`): the add and checkout gates.
- `Storage` (`storage.dfy`): the persisted cart, described by what reading it yields.
- `App` (`app.dfy`): the page state (role, cart, and their stored copies) and one
  step per user event, with the write-through and invariant lemmas.

The cart's "+", "-" and remove buttons address a line by its position
(`data-index`), and a bad position is a silent no-op.

## Model

| member | source | states |
|---|---|---|
| Roles.ParseRole | js/app.js:83-92 | the page's exact string tests on the role: the three known names map to their roles, every other string is kept verbatim as unrecognised, and the role's name is the string read |
| Roles.ParseRoleName | js/app.js:83-92 | reading back the name of a role gives the same role |
| Roles.InitialRole | js/app.js:2 | a missing or empty stored role means `visitante`; any other stored string is the role, spelled exactly as stored |
| Roles.ReloadRestoresRole | js/app.js:2-18 | a role stored by name after login or logout is the role the next page load starts with |
| Login.TrimStart | js/app.js:11 | `trim` on the left: the result is the suffix after the white-space prefix and does not start with white space |
| Login.TrimEnd | js/app.js:11 | `trim` on the right: the result is the prefix before the white-space suffix and does not end with white space |
| Login.ToLower | js/app.js:11 | lower-casing maps A-Z and KELVIN SIGN to their lower-case letters, keeps every other character, and keeps the length; this is enough for the admin comparison |
| Login.LoginRole | js/app.js:11-15 | login yields only `admin` or `cliente`, and `admin` exactly for the normalised admin e-mail with the admin password |
| Login.TrimStartSkipsSpace | js/app.js:11 | white space in front of a word that starts with a non-space is removed exactly |
| Login.TrimEndSkipsSpace | js/app.js:11 | white space after a word that ends with a non-space is removed exactly |
| Login.TrimPadded | js/app.js:11 | a word that starts and ends with a non-space, padded with white space on both sides, trims to exactly that word |
| Login.NormalisedAdminIsPadded | js/app.js:11-15 | an e-mail that normalises to the admin address is that address in some letter case, padded with white space |
| Login.PaddedAdminIsNormalised | js/app.js:11-15 | the admin address in any letter case, padded with white space, normalises to the admin address |
| Login.LoginAdminExactly | js/app.js:11-15 | login yields `admin` if and only if the password is `admin123` and the e-mail is `admin@bocatto.cl` up to surrounding white space and letter case |
| Navbar.HideAll | js/app.js:81 | every button present on the page ends up hidden |
| Navbar.Show | js/app.js:83-92 | only the named button is unhidden, and only if the page has it |
| Navbar.ActualizarNavbar | js/app.js:80-92 | the page keeps its buttons, and each is hidden exactly when the role's table entry does not list it: {login} for visitante, {pedidos, carrito, logout} for cliente, {admin, logout} for admin, nothing for any other role |
| Navbar.NavbarForgetsPriorState | js/app.js:80-92 | the navbar after the update does not depend on what it showed before |
| Navbar.LoginXorLogout | js/app.js:83-92 | each known role sees exactly one of the login and logout buttons |
| Navbar.AdminControlsHidden | js/app.js:94-102 | the card admin controls and "Agregar producto" are shown exactly to the roles whose navbar shows the admin button |
| Cart.FindByName | js/app.js:252 | the found position holds a line with that name and no earlier line has it; no position means no line has the name |
| Cart.Lookup | js/app.js:265-266 | a line is addressed exactly when the index is a whole number within the cart |
| Cart.WithQuantity | js/app.js:254 | only the chosen line's quantity changes; its name, price, image and all other lines stay |
| Cart.RemoveAt | js/app.js:271 | `splice(i, 1)`: one line fewer, the lines before and after `i` keep their order, and the removed line is exactly line `i` |
| Cart.AddLine | js/app.js:252-257 | an existing name gains one unit on its first line, keeping that line's price and image and leaving every other line alone; a new name is appended at the end with quantity 1 and the given price |
| Cart.AddedAt | js/app.js:252-257 | the touched position is inside the cart exactly when the name was already there |
| Cart.ActualizarCantidad | js/app.js:264-272 | a bad index or an unknown operation changes nothing; `sumar` adds exactly one unit to the addressed line; `restar` takes one away, or removes the line when its quantity would drop to zero or below |
| Cart.EliminarDelCarrito | js/app.js:279-281 | the addressed line is removed and the rest keep their order; a bad index changes nothing |
| Cart.RemoveAtKeepsWellformed | js/app.js:271 | removing a line keeps names unique and quantities at least 1 |
| Cart.AddKeepsWellformed | js/app.js:252-257 | adding keeps names unique and quantities at least 1 |
| Cart.ActualizarKeepsWellformed | js/app.js:264-272 | "+" and "-" keep names unique and quantities at least 1, so no line is left with quantity zero |
| Cart.EliminarKeepsWellformed | js/app.js:279-281 | removing by index keeps names unique and quantities at least 1 |
| Cart.SumarThenRestar | js/app.js:268-272 | "-" right after "+" on the same line gives back the original cart |
| Cart.AddThenRestar | js/app.js:252-272 | "-" on the line an add touched undoes the add, whether it merged or appended |
| Cart.AddRepeatedlyMerges | js/app.js:252-257 | `n` adds of a new product leave exactly one line for it, after the old lines, with quantity `n` and the first price |
| Totals.TotalsAppend | js/app.js:294-295 | both totals are additive over a split of the cart |
| Totals.TotalsSingle | js/app.js:294-295 | a one-line cart's totals are its quantity and its amount, price times quantity |
| Totals.AmountStep | js/app.js:325 | one unit more or less on a line changes its line total by exactly one unit price |
| Totals.TotalsWithQuantity | js/app.js:294-295 | changing one line's quantity moves both totals by that line's difference alone |
| Totals.TotalsSplice | js/app.js:294-295 | taking one line out of a cart takes exactly its quantity and amount off the totals |
| Totals.TotalsRemoveAt | js/app.js:294-295 | removing line `i` takes exactly its quantity and amount off the totals |
| Totals.ItemCountBounds | js/app.js:294 | with quantities at least 1, the item count is at least the number of lines and is zero only for the empty cart |
| Totals.MoneyTotalNonNegative | js/app.js:295 | with quantities at least 1 and non-negative prices, the money total is non-negative |
| Totals.AddRaisesTotals | js/app.js:252-257 | an add raises the item count by one and the money total by the touched line's stored price, which is the old price when the name was already there |
| Totals.SumarRaisesTotals | js/app.js:268 | "+" raises the item count by one and the total by that line's unit price |
| Totals.RestarLowersTotals | js/app.js:269-271 | "-" on a line of positive quantity lowers the item count by one and the total by that line's unit price, whether or not the line goes |
| Totals.RestarDropsLine | js/app.js:269-271 | "-" on a line of quantity 1 drops the line, taking one unit off the count and one unit price off the total |
| Totals.RestarKeepsLine | js/app.js:269-271 | "-" on a line of quantity above 1 keeps the line, taking one unit off the count and one unit price off the total |
| Totals.EliminarLowersTotals | js/app.js:280-281 | removing a line lowers the totals by its quantity and its amount; a bad index leaves them |
| Totals.RenderCarrito | js/app.js:294-308 | on a page that has the badge, "Vaciar" and the cart panel: the two `reduce` passes compute the sum of quantities and the sum of price times quantity; the badge is hidden exactly when the item count is 0 and shows the count otherwise; "Vaciar" is disabled and the empty notice shown exactly when the cart has no lines |
| Totals.BadgeAgreesWithVaciar | js/app.js:298-302 | on a well-formed cart the badge hides exactly when "Vaciar" is disabled |
| Totals.TwoPizzasMerge | js/app.js:252-257 | adding "Pizza Pepperoni" at 7990 twice to an empty cart gives one line of quantity 2 with line total 15980 |
| Gate.AgregarAlCarrito | js/app.js:242-257 | any role but `cliente` gets the login prompt and the cart exactly unchanged; a `cliente`'s add goes through silently |
| Gate.HacerPedido | js/app.js:366-385 | role first, then emptiness: a non-`cliente` is sent to log in, a `cliente` with an empty cart is alerted, and only a `cliente` with lines goes to `Ges_pagos.html` |
| Gate.GatesAgree | js/app.js:369-375 | add and checkout ask for a login for exactly the same roles |
| Gate.AddEnablesCheckout | js/app.js:378-384 | right after an add goes through, checkout proceeds |
| Storage.LoadCart | js/app.js:224-231 | a stored array is the cart; a missing, empty, unparsable or non-array value gives the empty cart |
| Storage.PersistCart | js/app.js:234-236 | the written cart is read back identically |
| App.Step | js/app.js:8-456 | one handled event: only login and logout write the role, and they store its name; login welcomes the admin, or the customer by the trimmed, lower-cased e-mail, logout says the session is closed, and registration only announces the new account; "+"/"-" with a bad index return before writing, while remove always writes the cart back; a card button without an image adds the default image; a gate alert comes only from a blocked add or checkout, which changes nothing; the login prompt appears exactly for a blocked add or checkout by a non-`cliente` |
| App.Boot | js/app.js:2-231 | the page starts from the stored role and cart, and its state is what a reload would rebuild |
| App.StepKeepsPersisted | js/app.js:234-236 | after every event, reloading the page would rebuild the same role and cart |
| App.StepKeepsWellformed | js/app.js:241-284 | every event keeps a well-formed cart well-formed |
| App.StepFrames | js/app.js:8-385 | cart events never change the role; login, logout, registration and checkout never change the cart |
| App.NavigatesOnlyToCheckout | js/app.js:363-385 | only "Hacer pedido" navigates, only for a `cliente` with a non-empty cart, and only to the checkout page |
| App.VaciarEmpties | js/app.js:351-357 | a confirmed "Vaciar" empties the cart and its stored copy with both totals 0; a declined one changes nothing |
| App.BlockedAddChangesNothing | js/app.js:446-456 | for any role but `cliente`, both add paths leave the whole page state unchanged and prompt a login |
| App.SessionEventsShowOneOfLoginLogout | js/app.js:44-52 | after login or logout the role is a known one, so exactly one of the login and logout buttons shows |
| App.CartButtonMatchesGate | js/app.js:85-88 | the navbar shows the cart button exactly to the roles the cart gate lets through |
| App.LogoutKeepsCart | js/app.js:46-52 | logout makes the role `visitante` and stores it, but keeps the cart and its stored copy |

## Left out

- The commented-out earlier cart (`js/app.js:104-217`): dead code, replaced by the live cart.
- HTML templating, `innerHTML`, `createElement`, CSS classes and the admin product form's direct editing of cards (`js/app.js:390-437`): markup with no data behind it.
- Bootstrap modals and offcanvas, the wording of each `alert` (a step names the alert it shows as a `Notice`), the `console.log` lines and event-listener wiring: UI plumbing. `confirm` becomes the `confirmed` flag of `VaciarClick`. Navigation becomes the page name a step returns.
- `localStorage` and JSON: a stored cart is described by what reading and parsing it gives (`StoredCart`), and a stored role by an optional string.
- App.StepKeepsPersisted: assumes storage writes succeed. The source swallows write failures (`js/app.js:235`), and after one the stored copy lags behind the in-memory cart. It also assumes that no other tab or page of the same origin writes `carrito_bocatto` or `userRole` between events. The page reads both keys only once, at load (`js/app.js:2`, `js/app.js:224-231`), and overwrites them whole on every write, so the last writer wins. After tab A stores `[X]` and an older tab B stores `[Y]`, reloading A gives `[Y]`.
- `CLP` currency formatting (`js/app.js:239`): locale-dependent host formatting.
- Input coercion `Number(precio) || 0`, `i.cantidad || 0` and `Number(i.precio) || 0`: prices and quantities are whole numbers already. On whole numbers these coercions are the identity.
- Cart.Line: quantities, prices and totals are unbounded integers. JavaScript numbers are IEEE doubles, so `cantidad++` (`js/app.js:254`, `js/app.js:268`) and the two `reduce` sums (`js/app.js:294-295`) round once a value passes 2^53. The model matches the page only while every quantity, price, amount and total stays at or below 2^53 in absolute value.
- Totals.RenderCarrito: describes a page that has every cart element. The source updates the badge only if `cart-count` exists (`js/app.js:298`) and "Vaciar" only if `btn-vaciar` exists (`js/app.js:302`). It shows or hides the empty notice only when `carrito-items`, `carrito-vacio` and `carrito-total` all exist (`js/app.js:305`). On a page that lacks one, that element is not touched.
- Stored carts whose lines lack fields or hold non-numbers: every line has its four fields.
- An `img` of `undefined` is modelled as the empty string.
- Parsing of the `data-index` string by `Number`: the index arrives as its result, a whole number or not.
- The `typeof userRole !== 'undefined'` test around both gates: `userRole` is always defined in this file, so the test always holds.
- Gate.AgregarAlCarrito: models the path on which nothing in the gate's `try` block throws. The block also opens the login modal (`new bootstrap.Modal(modalEl).show()`, `js/app.js:247` and `js/app.js:373`), and that call can throw, for instance on a badly typed `data-bs-*` option of `#loginModal`. The empty `catch` then swallows the error and skips the `return`, so the gate fails open.
- Gate.HacerPedido: the same fail-open path as the add gate. When opening the login modal throws, a non-`cliente` with lines is sent to `Ges_pagos.html` (`js/app.js:384`), and a non-`cliente` with an empty cart gets the empty-cart alert.
- Login.ToLower: lowers only A-Z and KELVIN SIGN (U+212A, to 'k'), one character at a time, and keeps every other character. JavaScript `toLowerCase` maps all of Unicode, lengthens U+0130 to "i" followed by U+0307, and lowers a final sigma by context. The admin comparison is still exact. The only characters besides A-Z whose lower-case form contains ASCII are U+0130 and U+212A. U+0130's form also carries U+0307, and 'k' is not in the address. So no other character can lower-case into a match, and keeping such characters unchanged cannot create one.
- Login.LoginRole: inherits the case mapping of Login.ToLower above. The admin decision is exact for all inputs.
- The registration form (`js/app.js:64-70`) only shows a message. Its event changes nothing.
- Re-rendering when the cart panel opens, and the duplicate `DOMContentLoaded` handler (`js/app.js:439-444`): these only repeat renders the model already describes.

=== FILE: app.dfy ===
/**
 * The page as a whole: the role and the cart, their persisted copies, and the
 * events the page reacts to. Every cart mutation writes the cart through to
 * storage; login and logout write the role.
 */
module App {
  import opened Optional
  import opened Roles
  import opened Login
  import opened Navbar
  import opened Cart
  import opened Totals
  import opened Gate
  import opened Storage

  /** The image used when an "Agregar al carrito" button carries none. */
  const DefaultImage: string := "Recursos_Esteticos/img/default.jpg"

  datatype State = State(role: PageRole, cart: Cart, storedRole: Option<string>, storedCart: StoredCart)

  /** The user actions the page handles. */
  datatype Event =
    | LoginSubmit(email: string, pass: string)
    | LogoutClick
    | RegisterSubmit
    | AgregarCall(nombre: string, precio: int, img: string)
    | AddButtonClick(nombre: string, precio: int, img: string)
    | ActualizarCall(index: Index, op: string)
    | EliminarCall(index: Index)
    | VaciarClick(confirmed: bool)
    | HacerPedidoClick

  /** A handled event: the next state, what the user is told, and where the page goes next. */
  datatype Response = Response(state: State, notice: Notice, navigate: Option<string>)

  /** Reloading from `s`'s stored copies would rebuild exactly `s`'s role and cart. */
  predicate Persisted(s: State)
  {
    InitialRole(s.storedRole) == s.role && LoadCart(s.storedCart) == s.cart
  }

  /** Page load: the role and the cart are read from storage. */
  function Boot(storedRole: Option<string>, storedCart: StoredCart): (s: State)
    ensures Persisted(s)
    ensures storedCart.JsonArray? ==> s.cart == storedCart.lines
    ensures !storedCart.JsonArray? ==> s.cart == []
  {
    State(InitialRole(storedRole), LoadCart(storedCart), storedRole, storedCart)
  }

  function Quiet(s: State): Response
  {
    Response(s, Silent, None)
  }

  /** A cart change written through to storage. */
  function WithCart(s: State, c: Cart): State
  {
    s.(cart := c, storedCart := PersistCart(c))
  }

  /** A role change written through to storage. */
  function WithRole(s: State, r: PageRole): State
  {
    s.(role := r, storedRole := Some(RoleName(r)))
  }

  function AddThroughGate(s: State, nombre: string, precio: int, img: string): Response
  {
    var out := AgregarAlCarrito(s.role, s.cart, nombre, precio, img);
    if out.notice == LoginPrompt then Response(s, LoginPrompt, None)
    else Quiet(WithCart(s, out.cart))
  }

  /**
   * One event handled by the page. Only login and logout write the role. "+" and "-"
   * with a bad index return before anything is written, while remove always writes
   * the cart back. A card button without an image adds the default image. Login
   * welcomes the new role, logout and registration announce themselves, and a
   * blocked gate alerts and changes nothing.
   */
  function Step(s: State, e: Event): (r: Response)
    ensures e.LoginSubmit? ==> r.state.storedRole == Some(RoleName(r.state.role)) && r.state.cart == s.cart
    ensures e.LoginSubmit? ==>
      r.notice == (if r.state.role == Admin then WelcomeAdmin else WelcomeCliente(NormaliseEmail(e.email)))
    ensures e.LogoutClick? ==> r.state.role == Visitante && r.state.storedRole == Some("visitante")
    ensures e.LogoutClick? ==> r.notice == SessionClosed
    ensures e.RegisterSubmit? ==> r == Response(s, AccountCreated, None)
    ensures !(e.LoginSubmit? || e.LogoutClick?) ==> r.state.role == s.role && r.state.storedRole == s.storedRole
    ensures e.ActualizarCall? && Lookup(s.cart, e.index).None? ==> r == Response(s, Silent, None)
    ensures e.ActualizarCall? && Lookup(s.cart, e.index).Some? ==>
      r.state.storedCart == JsonArray(r.state.cart)
    ensures e.EliminarCall? ==> r.state.storedCart == JsonArray(r.state.cart)
    ensures e.AddButtonClick? && e.img == "" && MayShop(s.role) ==>
      r.state.cart == AddLine(s.cart, e.nombre, e.precio, DefaultImage)
    ensures Blocking(r.notice) ==> (e.AgregarCall? || e.AddButtonClick? || e.HacerPedidoClick?) && r.state == s
    ensures r.notice == LoginPrompt <==>
      (e.AgregarCall? || e.AddButtonClick? || e.HacerPedidoClick?) && !MayShop(s.role)
  {
    match e
    case LoginSubmit(email, pass) =>
      var role := LoginRole(email, pass);
      Response(WithRole(s, role), if role == Admin then WelcomeAdmin else WelcomeCliente(NormaliseEmail(email)), None)
    case LogoutClick => Response(WithRole(s, Visitante), SessionClosed, None)
    case RegisterSubmit => Response(s, AccountCreated, None)
    case AgregarCall(nombre, precio, img) => AddThroughGate(s, nombre, precio, img)
    case AddButtonClick(nombre, precio, img) =>
      AddThroughGate(s, nombre, precio, if img == "" then DefaultImage else img)
    case ActualizarCall(index, op) =>
      if Lookup(s.cart, index).None? then Quiet(s)
      else Quiet(WithCart(s, ActualizarCantidad(s.cart, index, op)))
    case EliminarCall(index) => Quiet(WithCart(s, EliminarDelCarrito(s.cart, index)))
    case VaciarClick(confirmed) => if confirmed then Quiet(WithCart(s, [])) else Quiet(s)
    case HacerPedidoClick =>
      match HacerPedido(s.role, s.cart)
      case Blocked(notice) => Response(s, notice, None)
      case Proceed(page) => Quiet(s).(navigate := Some(page))
  }

  /** Write-through: after every event a reload would rebuild the same role and cart. */
  lemma StepKeepsPersisted(s: State, e: Event)
    requires Persisted(s)
    ensures Persisted(Step(s, e).state)
  {
    match e
    case LoginSubmit(email, pass) => ReloadRestoresRole(LoginRole(email, pass));
    case LogoutClick => ReloadRestoresRole(Visitante);
    case _ =>
  }

  /** Every event keeps a well-formed cart well-formed. */
  lemma StepKeepsWellformed(s: State, e: Event)
    requires Wellformed(s.cart)
    ensures Wellformed(Step(s, e).state.cart)
  {
    match e
    case AgregarCall(nombre, precio, img) => AddKeepsWellformed(s.cart, nombre, precio, img);
    case AddButtonClick(nombre, precio, img) =>
      AddKeepsWellformed(s.cart, nombre, precio, if img == "" then DefaultImage else img);
    case ActualizarCall(index, op) => ActualizarKeepsWellformed(s.cart, index, op);
    case EliminarCall(index) => EliminarKeepsWellformed(s.cart, index);
    case _ =>
  }

  /** Cart events never touch the role; login, logout and registration never touch the cart. */
  lemma StepFrames(s: State, e: Event)
    ensures (e.LoginSubmit? || e.LogoutClick? || e.RegisterSubmit? || e.HacerPedidoClick?) ==>
      Step(s, e).state.cart == s.cart && Step(s, e).state.storedCart == s.storedCart
    ensures !(e.LoginSubmit? || e.LogoutClick?) ==>
      Step(s, e).state.role == s.role && Step(s, e).state.storedRole == s.storedRole
  {
  }

  /** Only "Hacer pedido" navigates, and only for a customer with a non-empty cart. */
  lemma NavigatesOnlyToCheckout(s: State, e: Event)
    ensures Step(s, e).navigate.Some? <==> e.HacerPedidoClick? && MayShop(s.role) && s.cart != []
    ensures Step(s, e).navigate.Some? ==> Step(s, e).navigate.value == CheckoutPage
  {
  }

  /** A confirmed "Vaciar" empties the cart and its stored copy; a declined one changes nothing. */
  lemma VaciarEmpties(s: State, confirmed: bool)
    ensures confirmed ==>
      var t := Step(s, VaciarClick(confirmed)).state;
      && t.cart == [] && LoadCart(t.storedCart) == []
      && ItemCount(t.cart) == 0 && MoneyTotal(t.cart) == 0
    ensures !confirmed ==> Step(s, VaciarClick(confirmed)).state == s
  {
  }

  /** A blocked add (any role but "cliente") leaves the whole state as it was and prompts a login. */
  lemma BlockedAddChangesNothing(s: State, nombre: string, precio: int, img: string)
    requires !MayShop(s.role)
    ensures Step(s, AgregarCall(nombre, precio, img)) == Response(s, LoginPrompt, None)
    ensures Step(s, AddButtonClick(nombre, precio, img)) == Response(s, LoginPrompt, None)
  {
  }

  /** After login or logout the role is a known one, so the navbar shows exactly one of login and logout. */
  lemma SessionEventsShowOneOfLoginLogout(s: State, e: Event)
    requires e.LoginSubmit? || e.LogoutClick?
    ensures var r := Step(s, e).state.role;
      !r.Unrecognised? && (BtnLogin in Revealed(r) <==> BtnLogout !in Revealed(r))
  {
  }

  /** The navbar shows the cart button exactly to the roles the cart gate lets through. */
  lemma CartButtonMatchesGate(role: PageRole)
    ensures BtnCarrito in Revealed(role) <==> MayShop(role)
  {
  }

  /** Logging out keeps the cart and its stored copy: the next customer on the browser finds it. */
  lemma LogoutKeepsCart(s: State)
    ensures Step(s, LogoutClick).state.cart == s.cart
    ensures Step(s, LogoutClick).state.storedCart == s.storedCart
    ensures Step(s, LogoutClick).state.role == Visitante
    ensures Step(s, LogoutClick).state.storedRole == Some("visitante")
  {
  }

}

=== FILE: cart.dfy ===
/**
 * The live shopping cart of js/app.js (`carrito`): an ordered list of lines,
 * merged by product name on add, addressed by list position on the panel's
 * "+", "-" and remove buttons.
 */
module Cart {
  import opened Optional

  /** One cart line: name, unit price in whole pesos, quantity, image URL ("" when none). */
  datatype Line = Line(nombre: string, precio: int, cantidad: int, img: string)

  type Cart = seq<Line>

  /**
   * What `Number(index)` gives for a button's `data-index` string: a whole number,
   * or something `Number.isInteger` rejects (a fraction, NaN, an infinity).
   */
  datatype Index = Whole(n: int) | NotWhole

  const Sumar: string := "sumar"
  const Restar: string := "restar"

  /** At most one line per product name. */
  predicate NamesUnique(c: Cart)
  {
    forall i, j :: 0 <= i < j < |c| ==> c[i].nombre != c[j].nombre
  }

  /** No line is stored with a quantity below one. */
  predicate QuantitiesPositive(c: Cart)
  {
    forall i :: 0 <= i < |c| ==> c[i].cantidad >= 1
  }

  /** The cart invariants the operations keep. */
  predicate Wellformed(c: Cart)
  {
    NamesUnique(c) && QuantitiesPositive(c)
  }

  /** `carrito.find(i => i.nombre === nombre)`, as a position: the first line with that name. */
  function FindByName(c: Cart, nombre: string): (r: Option<nat>)
    ensures r.Some? ==> r.value < |c| && c[r.value].nombre == nombre
    ensures r.Some? ==> forall j :: 0 <= j < r.value ==> c[j].nombre != nombre
    ensures r.None? ==> forall j :: 0 <= j < |c| ==> c[j].nombre != nombre
    decreases |c|
  {
    if |c| == 0 then None
    else if c[0].nombre == nombre then Some(0)
    else match FindByName(c[1..], nombre)
      case None => None
      case Some(k) => Some(k + 1)
  }

  /** The guard `Number.isInteger(i) && carrito[i]`: the addressed line, if there is one. */
  function Lookup(c: Cart, index: Index): (r: Option<nat>)
    ensures r.Some? <==> index.Whole? && 0 <= index.n < |c|
    ensures r.Some? ==> r.value == index.n
  {
    match index
    case Whole(n) => if 0 <= n < |c| then Some(n) else None
    case NotWhole => None
  }

  /** `r` is `c` with only line `i`'s quantity changed, to `q`; name, price, image and order stay. */
  predicate OnlyQuantityChanged(c: Cart, r: Cart, i: nat, q: int)
  {
    && i < |c| && |r| == |c|
    && r[i] == Line(c[i].nombre, c[i].precio, q, c[i].img)
    && (forall j :: 0 <= j < |c| && j != i ==> r[j] == c[j])
  }

  /** The cart with line `i`'s quantity set to `q`. */
  function WithQuantity(c: Cart, i: nat, q: int): (r: Cart)
    requires i < |c|
    ensures OnlyQuantityChanged(c, r, i, q)
  {
    c[i := c[i].(cantidad := q)]
  }

  /** `carrito.splice(i, 1)`: line `i` is gone and the rest keep their order. */
  function RemoveAt(c: Cart, i: nat): (r: Cart)
    requires i < |c|
    ensures |r| == |c| - 1
    ensures forall j :: 0 <= j < i ==> r[j] == c[j]
    ensures forall j :: i <= j < |r| ==> r[j] == c[j + 1]
    ensures multiset(r) + multiset{c[i]} == multiset(c)
  {
    assert c == c[..i] + [c[i]] + c[i + 1..];
    c[..i] + c[i + 1..]
  }

  /**
   * The cart part of `agregarAlCarrito`, once the role gate has passed: the
   * first line with the same name gains one unit and keeps its price and
   * image; otherwise a new line of quantity one is appended.
   */
  function AddLine(c: Cart, nombre: string, precio: int, img: string): (r: Cart)
    ensures FindByName(c, nombre).Some? ==>
      var k := FindByName(c, nombre).value;
      OnlyQuantityChanged(c, r, k, c[k].cantidad + 1)
    ensures FindByName(c, nombre).None? ==>
      && |r| == |c| + 1
      && r[..|c|] == c
      && r[|c|] == Line(nombre, precio, 1, img)
  {
    match FindByName(c, nombre)
    case Some(k) => WithQuantity(c, k, c[k].cantidad + 1)
    case None => c + [Line(nombre, precio, 1, img)]
  }

  /** The position of the line an add touches: the merged line, or the new last line. */
  function AddedAt(c: Cart, nombre: string): (k: nat)
    ensures k <= |c|
    ensures k < |c| <==> exists j :: 0 <= j < |c| && c[j].nombre == nombre
  {
    match FindByName(c, nombre)
    case Some(k) => k
    case None => |c|
  }

  /**
   * `actualizarCantidad(index, operacion)`: "sumar" adds one unit to the addressed
   * line, "restar" takes one away and drops the line once its quantity is no
   * longer positive; an unknown operation or a bad index changes nothing.
   */
  function ActualizarCantidad(c: Cart, index: Index, op: string): (r: Cart)
    ensures Lookup(c, index).None? ==> r == c
    ensures op != Sumar && op != Restar ==> r == c
    ensures Lookup(c, index).Some? && op == Sumar ==>
      OnlyQuantityChanged(c, r, index.n, c[index.n].cantidad + 1)
    ensures Lookup(c, index).Some? && op == Restar && c[index.n].cantidad > 1 ==>
      OnlyQuantityChanged(c, r, index.n, c[index.n].cantidad - 1)
    ensures Lookup(c, index).Some? && op == Restar && c[index.n].cantidad <= 1 ==>
      r == RemoveAt(c, index.n)
  {
    match Lookup(c, index)
    case None => c
    case Some(i) =>
      if op == Sumar then WithQuantity(c, i, c[i].cantidad + 1)
      else if op == Restar then
        if c[i].cantidad - 1 <= 0 then RemoveAt(c, i) else WithQuantity(c, i, c[i].cantidad - 1)
      else c
  }

  /** `eliminarDelCarrito(index)`: removes the addressed line; a bad index changes nothing. */
  function EliminarDelCarrito(c: Cart, index: Index): (r: Cart)
    ensures Lookup(c, index).None? ==> r == c
    ensures Lookup(c, index).Some? ==> r == RemoveAt(c, index.n)
  {
    match Lookup(c, index)
    case None => c
    case Some(i) => RemoveAt(c, i)
  }

  /** Removing a line keeps both invariants. */
  lemma RemoveAtKeepsWellformed(c: Cart, i: nat)
    requires i < |c| && Wellformed(c)
    ensures Wellformed(RemoveAt(c, i))
  {
    var r := RemoveAt(c, i);
    forall a, b | 0 <= a < b < |r|
      ensures r[a].nombre != r[b].nombre
    {
      var a' := if a < i then a else a + 1;
      var b' := if b < i then b else b + 1;
      assert r[a] == c[a'] && r[b] == c[b'] && a' < b';
    }
  }

  /** Adding keeps names unique and quantities positive. */
  lemma AddKeepsWellformed(c: Cart, nombre: string, precio: int, img: string)
    requires Wellformed(c)
    ensures Wellformed(AddLine(c, nombre, precio, img))
  {
    var r := AddLine(c, nombre, precio, img);
    if FindByName(c, nombre).None? {
      forall a, b | 0 <= a < b < |r|
        ensures r[a].nombre != r[b].nombre
      {
        assert r[a] == c[a];
        if b < |c| { assert r[b] == c[b]; }
      }
    }
  }

  /** "+", "-" keep names unique and quantities positive. */
  lemma ActualizarKeepsWellformed(c: Cart, index: Index, op: string)
    requires Wellformed(c)
    ensures Wellformed(ActualizarCantidad(c, index, op))
  {
    if Lookup(c, index).Some? && op == Restar && c[index.n].cantidad <= 1 {
      RemoveAtKeepsWellformed(c, index.n);
    }
  }

  /** Removing a line by index keeps both invariants. */
  lemma EliminarKeepsWellformed(c: Cart, index: Index)
    requires Wellformed(c)
    ensures Wellformed(EliminarDelCarrito(c, index))
  {
    if Lookup(c, index).Some? {
      RemoveAtKeepsWellformed(c, index.n);
    }
  }

  /** "-" right after "+" on the same line restores the cart. */
  lemma SumarThenRestar(c: Cart, index: Index)
    requires Lookup(c, index).Some? && c[index.n].cantidad >= 1
    ensures ActualizarCantidad(ActualizarCantidad(c, index, Sumar), index, Restar) == c
  {
    var i := index.n;
    var s := ActualizarCantidad(c, index, Sumar);
    assert s == WithQuantity(c, i, c[i].cantidad + 1);
    assert ActualizarCantidad(s, index, Restar) == WithQuantity(s, i, c[i].cantidad);
  }

  /** "-" on the line an add touched undoes that add. */
  lemma AddThenRestar(c: Cart, nombre: string, precio: int, img: string)
    requires QuantitiesPositive(c)
    ensures ActualizarCantidad(AddLine(c, nombre, precio, img), Whole(AddedAt(c, nombre)), Restar) == c
  {
    var a := AddLine(c, nombre, precio, img);
    var k := AddedAt(c, nombre);
    if FindByName(c, nombre).Some? {
      assert ActualizarCantidad(a, Whole(k), Restar) == WithQuantity(a, k, c[k].cantidad);
    } else {
      assert ActualizarCantidad(a, Whole(k), Restar) == RemoveAt(a, k);
      assert RemoveAt(a, k) == a[..|c|];
    }
  }

  /** The cart after `n` adds of the same product. */
  function AddRepeatedly(c: Cart, nombre: string, precio: int, img: string, n: nat): Cart
  {
    if n == 0 then c else AddLine(AddRepeatedly(c, nombre, precio, img, n - 1), nombre, precio, img)
  }

  /**
   * Adding a product that is not in the cart `n` times leaves exactly one line
   * for it, appended after the old lines, with quantity `n` and the first price.
   */
  lemma {:induction false} AddRepeatedlyMerges(c: Cart, nombre: string, precio: int, img: string, n: nat)
    requires n >= 1 && FindByName(c, nombre).None?
    ensures var r := AddRepeatedly(c, nombre, precio, img, n);
      && |r| == |c| + 1
      && r[..|c|] == c
      && r[|c|] == Line(nombre, precio, n, img)
    decreases n
  {
    if n > 1 {
      AddRepeatedlyMerges(c, nombre, precio, img, n - 1);
      var p := AddRepeatedly(c, nombre, precio, img, n - 1);
      var f := FindByName(p, nombre);
      assert p[|c|].nombre == nombre;
      forall j | 0 <= j < |c|
        ensures p[j].nombre != nombre
      {
        assert p[j] == p[..|c|][j] == c[j];
      }
      assert f == Some(|c|);
      var r := AddLine(p, nombre, precio, img);
      assert r[..|c|] == p[..|c|];
    }
  }

}

=== FILE: gate.dfy ===
/**
 * The role gate of the cart: only a "cliente" may add to the cart or go to the
 * checkout page, and the checkout also needs a non-empty cart.
 */
module Gate {
  import opened Roles
  import opened Cart

  /** The page the "Hacer pedido" button navigates to. */
  const CheckoutPage: string := "Ges_pagos.html"

  /** The role test shared by add and checkout (`userRole !== 'cliente'` blocks). */
  predicate MayShop(role: PageRole)
  {
    role == Cliente
  }

  /**
   * What the user is told: nothing, one of the two alerts of a blocked gate, or one
   * of the session alerts (the welcome after login, which names the normalised
   * e-mail of a customer, the logout notice and the registration notice).
   */
  datatype Notice =
    | Silent
    | LoginPrompt
    | EmptyCartAlert
    | WelcomeAdmin
    | WelcomeCliente(email: string)
    | SessionClosed
    | AccountCreated

  /** The notices a gate shows when it blocks an action. */
  predicate Blocking(n: Notice)
  {
    n.LoginPrompt? || n.EmptyCartAlert?
  }

  datatype AddOutcome = AddOutcome(cart: Cart, notice: Notice)

  /**
   * `agregarAlCarrito`: a non-customer gets the login prompt and the cart is left
   * exactly as it was; a customer's add goes through without a notice.
   */
  function AgregarAlCarrito(role: PageRole, c: Cart, nombre: string, precio: int, img: string): (r: AddOutcome)
    ensures !MayShop(role) ==> r.cart == c && r.notice == LoginPrompt
    ensures MayShop(role) ==> r.notice == Silent && r.cart == AddLine(c, nombre, precio, img)
  {
    if !MayShop(role) then AddOutcome(c, LoginPrompt)
    else AddOutcome(AddLine(c, nombre, precio, img), Silent)
  }

  datatype Checkout = Blocked(notice: Notice) | Proceed(page: string)

  /**
   * The "Hacer pedido" handler: the role is checked first (login prompt), then
   * emptiness (empty-cart alert); only a customer with lines proceeds.
   */
  function HacerPedido(role: PageRole, c: Cart): (r: Checkout)
    ensures r.Proceed? <==> MayShop(role) && |c| > 0
    ensures r.Proceed? ==> r.page == CheckoutPage
    ensures !MayShop(role) ==> r == Blocked(LoginPrompt)
    ensures MayShop(role) && c == [] ==> r == Blocked(EmptyCartAlert)
  {
    if !MayShop(role) then Blocked(LoginPrompt)
    else if |c| == 0 then Blocked(EmptyCartAlert)
    else Proceed(CheckoutPage)
  }

  /** Add and checkout ask for a login for exactly the same roles. */
  lemma GatesAgree(role: PageRole, c: Cart, nombre: string, precio: int, img: string)
    ensures AgregarAlCarrito(role, c, nombre, precio, img).notice == LoginPrompt
        <==> HacerPedido(role, c) == Blocked(LoginPrompt)
  {
  }

  /** Right after an add goes through, checkout proceeds. */
  lemma AddEnablesCheckout(role: PageRole, c: Cart, nombre: string, precio: int, img: string)
    requires MayShop(role)
    ensures HacerPedido(role, AgregarAlCarrito(role, c, nombre, precio, img).cart) == Proceed(CheckoutPage)
  {
    var r := AddLine(c, nombre, precio, img);
    if FindByName(c, nombre).Some? {
      assert |r| == |c| > 0;
    } else {
      assert |r| == |c| + 1;
    }
  }

}

=== FILE: login.dfy ===
/**
 * The simulated login of js/app.js: the e-mail is trimmed and lower-cased, and
 * the role is "admin" exactly for the one built-in admin account, otherwise
 * "cliente". There is no password check for customers.
 */
module Login {
  import opened Roles

  const AdminEmail: string := "admin@bocatto.cl"
  const AdminPassword: string := "admin123"

  /** The characters `String.prototype.trim` strips: JavaScript white space and line terminators. */
  const SpaceChars: set<char> := {
    '\t', '\n', '\U{000B}', '\U{000C}', '\r', ' ', '\U{00A0}', '\U{1680}',
    '\U{2000}', '\U{2001}', '\U{2002}', '\U{2003}', '\U{2004}', '\U{2005}',
    '\U{2006}', '\U{2007}', '\U{2008}', '\U{2009}', '\U{200A}',
    '\U{2028}', '\U{2029}', '\U{202F}', '\U{205F}', '\U{3000}', '\U{FEFF}'
  }

  predicate IsSpace(ch: char)
  {
    ch in SpaceChars
  }

  predicate AllSpace(s: string)
  {
    forall i :: 0 <= i < |s| ==> IsSpace(s[i])
  }

  /** Drops leading white space: the result is the suffix of `s` after its white-space prefix. */
  function TrimStart(s: string): (r: string)
    ensures |r| <= |s| && r == s[|s| - |r|..]
    ensures AllSpace(s[..|s| - |r|])
    ensures r == [] || !IsSpace(r[0])
    decreases |s|
  {
    if |s| > 0 && IsSpace(s[0]) then
      var r := TrimStart(s[1..]);
      assert s[..|s| - |r|] == [s[0]] + s[1..][..|s| - 1 - |r|];
      r
    else
      s
  }

  /** Drops trailing white space: the result is the prefix of `s` before its white-space suffix. */
  function TrimEnd(s: string): (r: string)
    ensures |r| <= |s| && r == s[..|r|]
    ensures AllSpace(s[|r|..])
    ensures r == [] || !IsSpace(r[|r| - 1])
    decreases |s|
  {
    if |s| > 0 && IsSpace(s[|s| - 1]) then
      var r := TrimEnd(s[..|s| - 1]);
      assert s[|r|..] == s[..|s| - 1][|r|..] + [s[|s| - 1]];
      r
    else
      s
  }

  function Trim(s: string): string
  {
    TrimEnd(TrimStart(s))
  }

  /**
   * `toLowerCase` on one character, for the characters whose lower-case form is
   * a single ASCII character: A-Z and KELVIN SIGN. Every other character is kept.
   */
  function LowerChar(ch: char): char
  {
    if 'A' <= ch <= 'Z' then (ch as int + 32) as char
    else if ch == '\U{212A}' then 'k'
    else ch
  }

  function ToLower(s: string): (r: string)
    ensures |r| == |s|
    ensures forall i :: 0 <= i < |s| ==> r[i] == LowerChar(s[i])
  {
    seq(|s|, i requires 0 <= i < |s| => LowerChar(s[i]))
  }

  /** The e-mail as the login handler compares it. */
  function NormaliseEmail(email: string): string
  {
    ToLower(Trim(email))
  }

  /** The role a login submission yields. */
  function LoginRole(email: string, pass: string): (r: Role)
    ensures r == Admin || r == Cliente
    ensures Canonical(r)
    ensures r == Admin <==> NormaliseEmail(email) == AdminEmail && pass == AdminPassword
  {
    if NormaliseEmail(email) == AdminEmail && pass == AdminPassword then Admin else Cliente
  }

  /** Leading white space in front of a word that starts with a non-space is trimmed away exactly. */
  lemma {:induction false} TrimStartSkipsSpace(w: string, m: string)
    requires AllSpace(w)
    requires m == [] || !IsSpace(m[0])
    ensures TrimStart(w + m) == m
    decreases |w|
  {
    if w == [] {
      assert w + m == m;
    } else {
      assert (w + m)[1..] == w[1..] + m;
      TrimStartSkipsSpace(w[1..], m);
    }
  }

  /** Trailing white space after a word that ends with a non-space is trimmed away exactly. */
  lemma {:induction false} TrimEndSkipsSpace(m: string, w: string)
    requires AllSpace(w)
    requires m == [] || !IsSpace(m[|m| - 1])
    ensures TrimEnd(m + w) == m
    decreases |w|
  {
    if w == [] {
      assert m + w == m;
    } else {
      var w' := w[..|w| - 1];
      assert (m + w)[..|m + w| - 1] == m + w';
      TrimEndSkipsSpace(m, w');
    }
  }

  /** The e-mail is the admin address, surrounded by any white space and in any letter case. */
  predicate PaddedAdminEmail(email: string)
  {
    exists i, j :: 0 <= i <= j <= |email| && AllSpace(email[..i]) && AllSpace(email[j..])
      && ToLower(email[i..j]) == AdminEmail
  }

  /** A normalised admin e-mail is the admin address padded with white space. */
  lemma NormalisedAdminIsPadded(email: string)
    requires NormaliseEmail(email) == AdminEmail
    ensures PaddedAdminEmail(email)
  {
    var ts := TrimStart(email);
    var i := |email| - |ts|;
    var t := TrimEnd(ts);
    var j := i + |t|;
    assert ts == email[i..];
    assert t == ts[..|t|];
    SliceOfSuffix(email, i, |t|);
    assert AllSpace(email[..i]) && AllSpace(email[j..]);
    assert ToLower(email[i..j]) == AdminEmail;
  }

  /** Cutting a suffix of `s` at `k` is cutting `s` at `i + k`. */
  lemma SliceOfSuffix(s: string, i: nat, k: nat)
    requires i + k <= |s|
    ensures s[i..][..k] == s[i..i + k]
    ensures s[i..][k..] == s[i + k..]
  {
  }

  /** A word with white space around it trims to the word, when the word starts and ends with a non-space. */
  lemma TrimPadded(pre: string, core: string, post: string)
    requires AllSpace(pre) && AllSpace(post)
    requires core != [] && !IsSpace(core[0]) && !IsSpace(core[|core| - 1])
    ensures Trim(pre + core + post) == core
  {
    assert pre + core + post == pre + (core + post);
    TrimStartSkipsSpace(pre, core + post);
    TrimEndSkipsSpace(core, post);
  }

  /** The admin address padded with white space normalises to the admin address. */
  lemma PaddedAdminIsNormalised(email: string, i: nat, j: nat)
    requires i <= j <= |email| && AllSpace(email[..i]) && AllSpace(email[j..])
    requires ToLower(email[i..j]) == AdminEmail
    ensures NormaliseEmail(email) == AdminEmail
  {
    var core := email[i..j];
    assert |core| == 16;
    assert LowerChar(core[0]) == 'a' by {
      assert ToLower(core)[0] == AdminEmail[0];
    }
    assert LowerChar(core[15]) == 'l' by {
      assert ToLower(core)[15] == AdminEmail[15];
    }
    assert email == email[..i] + core + email[j..];
    TrimPadded(email[..i], core, email[j..]);
  }

  /**
   * Login yields "admin" exactly when the password is the admin password and the
   * e-mail is the admin address up to surrounding white space and letter case.
   */
  lemma LoginAdminExactly(email: string, pass: string)
    ensures LoginRole(email, pass) == Admin <==> pass == AdminPassword && PaddedAdminEmail(email)
  {
    if NormaliseEmail(email) == AdminEmail {
      NormalisedAdminIsPadded(email);
    }
    if PaddedAdminEmail(email) {
      var i, j :| 0 <= i <= j <= |email| && AllSpace(email[..i]) && AllSpace(email[j..])
        && ToLower(email[i..j]) == AdminEmail;
      PaddedAdminIsNormalised(email, i, j);
    }
  }
}

=== FILE: navbar.dfy ===
/**
 * `actualizarNavbar`: the five role-dependent navbar buttons. A page may lack
 * some of them, so the page's buttons are a map from the buttons present to
 * their `hidden` flag.
 */
module Navbar {
  import opened Roles

  datatype Button = BtnLogin | BtnPedidos | BtnCarrito | BtnAdmin | BtnLogout

  /** The buttons each role is shown: the fixed role-to-visibility table. */
  function Revealed(role: PageRole): set<Button>
  {
    match role
    case Visitante => {BtnLogin}
    case Cliente => {BtnPedidos, BtnCarrito, BtnLogout}
    case Admin => {BtnAdmin, BtnLogout}
    case Unrecognised(_) => {}
  }

  /** First step of the update: every button present on the page is hidden. */
  function HideAll(page: map<Button, bool>): (r: map<Button, bool>)
    ensures r.Keys == page.Keys
    ensures forall b :: b in r ==> r[b]
  {
    map b | b in page :: true
  }

  /** Unhides one button if the page has it (the source's `if (el) el.hidden = false`). */
  function Show(page: map<Button, bool>, b: Button): (r: map<Button, bool>)
    ensures r.Keys == page.Keys
    ensures b in r ==> !r[b]
    ensures forall x :: x in r && x != b ==> r[x] == page[x]
  {
    if b in page then page[b := false] else page
  }

  /**
   * The navbar after `actualizarNavbar` for `role`: the same buttons, each hidden
   * exactly when the role's table entry does not list it, whatever the page showed before.
   */
  function ActualizarNavbar(page: map<Button, bool>, role: PageRole): (r: map<Button, bool>)
    ensures r.Keys == page.Keys
    ensures forall b :: b in r ==> (r[b] <==> b !in Revealed(role))
  {
    var hidden := HideAll(page);
    match role
    case Visitante => Show(hidden, BtnLogin)
    case Cliente => Show(Show(Show(hidden, BtnPedidos), BtnCarrito), BtnLogout)
    case Admin => Show(Show(hidden, BtnAdmin), BtnLogout)
    case Unrecognised(_) => hidden
  }

  /** The update depends only on which buttons exist, never on their previous state. */
  lemma NavbarForgetsPriorState(p1: map<Button, bool>, p2: map<Button, bool>, role: PageRole)
    requires p1.Keys == p2.Keys
    ensures ActualizarNavbar(p1, role) == ActualizarNavbar(p2, role)
  {
    var r1, r2 := ActualizarNavbar(p1, role), ActualizarNavbar(p2, role);
    assert forall b :: b in r1 ==> r1[b] == r2[b];
  }

  /** Each known role sees exactly one of the login and logout buttons. */
  lemma LoginXorLogout(role: PageRole)
    requires !role.Unrecognised?
    ensures BtnLogin in Revealed(role) <==> BtnLogout !in Revealed(role)
  {
  }

  /**
   * The admin controls on product cards and the "Agregar producto" button are
   * hidden for every role but "admin".
   */
  function AdminControlsHidden(role: PageRole): (hidden: bool)
    ensures !hidden <==> BtnAdmin in Revealed(role)
  {
    role != Admin
  }

}

=== FILE: optional.dfy ===
/** A value that may be absent: a missing storage key, a lookup that finds nothing. */
module Optional {

  datatype Option<+T> = None | Some(value: T)

}

=== FILE: roles.dfy ===
/**
 * The session role of the storefront. The page keeps it as a plain string in
 * `userRole` and in the `userRole` storage key; the three strings the page knows
 * are "visitante", "cliente" and "admin", and any other string is carried along
 * unchanged (it matches none of the page's comparisons).
 */
module Roles {
  import opened Optional

  datatype Role = Visitante | Cliente | Admin | Unrecognised(raw: string)

  /** The string the page stores and compares for a role. */
  function RoleName(r: Role): string
  {
    match r
    case Visitante => "visitante"
    case Cliente => "cliente"
    case Admin => "admin"
    case Unrecognised(raw) => raw
  }

  /**
   * A role as the page can hold it after loading: an unrecognised role is never
   * empty (that reads as the visitor default) and never spells a known name.
   */
  predicate Canonical(r: Role)
  {
    r.Unrecognised? ==> r.raw != "" && r.raw != "visitante" && r.raw != "cliente" && r.raw != "admin"
  }

  /** The roles a page can hold: the only values the role-driven parts of the page are given. */
  type PageRole = r: Role | Canonical(r) witness Visitante

  /** Reads a stored role string with the page's exact `===` comparisons. */
  function ParseRole(s: string): (r: Role)
    ensures s != "" ==> Canonical(r)
    ensures RoleName(r) == s
    ensures r.Unrecognised? <==> s != "visitante" && s != "cliente" && s != "admin"
  {
    if s == "visitante" then Visitante
    else if s == "cliente" then Cliente
    else if s == "admin" then Admin
    else Unrecognised(s)
  }

  /** Parsing the stored name of a canonical role gives that role back. */
  lemma ParseRoleName(r: Role)
    requires Canonical(r)
    ensures ParseRole(RoleName(r)) == r
  {
  }

  /**
   * The role at page load: a missing or empty stored value falls back to
   * "visitante" (the `|| 'visitante'` default); any other stored string is kept.
   */
  function InitialRole(stored: Option<string>): (r: Role)
    ensures Canonical(r)
    ensures stored == None || stored == Some("") ==> r == Visitante
    ensures stored.Some? && stored.value != "" ==> RoleName(r) == stored.value
  {
    match stored
    case None => Visitante
    case Some(s) => if s == "" then Visitante else ParseRole(s)
  }

  /** Storing a canonical role's name and loading the page again restores the role. */
  lemma {:induction false} ReloadRestoresRole(r: Role)
    requires Canonical(r)
    ensures InitialRole(Some(RoleName(r))) == r
  {
    assert RoleName(r) != "";
    ParseRoleName(r);
  }

}

=== FILE: storage.dfy ===
/**
 * The persisted copy of the cart under the key "carrito_bocatto". The storage
 * itself and JSON are outside the model: a stored value is described by what
 * reading and parsing it gives.
 */
module Storage {
  import opened Cart

  const CartKey: string := "carrito_bocatto"

  /** What reading the cart key gives: nothing, an empty string, text that does not parse, a parsed non-array, or a parsed array. */
  datatype StoredCart = Absent | Blank | Unparsable | NotArray | JsonArray(lines: Cart)

  /** The cart at page load: the stored array, or the empty cart for anything else. */
  function LoadCart(s: StoredCart): (r: Cart)
    ensures s.JsonArray? ==> r == s.lines
    ensures !s.JsonArray? ==> r == []
  {
    match s
    case JsonArray(lines) => lines
    case _ => []
  }

  /** `persistCarrito`: the whole cart is written as one array under `CartKey`. */
  function PersistCart(c: Cart): (s: StoredCart)
    ensures LoadCart(s) == c
  {
    JsonArray(c)
  }

}

=== FILE: totals.dfy ===
/**
 * The derived figures of `renderCarrito`: the item count shown on the navbar
 * badge, the money total, and the states of the badge, the "Vaciar" button and
 * the empty-cart notice.
 */
module Totals {
  import opened Optional
  import opened Cart

  /** Sum of the quantities, accumulated left to right like the source's `reduce`. */
  function ItemCount(c: Cart): int
    decreases |c|
  {
    if c == [] then 0 else ItemCount(c[..|c| - 1]) + c[|c| - 1].cantidad
  }

  /** A line's amount, price times quantity: the line total the cart panel shows. */
  function Amount(l: Line): int
  {
    l.precio * l.cantidad
  }

  /** Sum of the line amounts, accumulated left to right. */
  function MoneyTotal(c: Cart): int
    decreases |c|
  {
    if c == [] then 0 else MoneyTotal(c[..|c| - 1]) + Amount(c[|c| - 1])
  }

  /** Both totals of a cart split in two are the sums of the totals of the parts. */
  lemma {:induction false} TotalsAppend(a: Cart, b: Cart)
    ensures ItemCount(a + b) == ItemCount(a) + ItemCount(b)
    ensures MoneyTotal(a + b) == MoneyTotal(a) + MoneyTotal(b)
    decreases |b|
  {
    if b == [] {
      assert a + b == a;
    } else {
      var b' := b[..|b| - 1];
      assert (a + b)[..|a + b| - 1] == a + b';
      TotalsAppend(a, b');
    }
  }

  /** The totals of a one-line cart are that line's quantity and amount. */
  lemma TotalsSingle(l: Line)
    ensures ItemCount([l]) == l.cantidad && MoneyTotal([l]) == Amount(l)
  {
    assert [l][..0] == [];
  }

  /** Taking one line out of the middle of a cart takes exactly its quantity and amount off. */
  lemma TotalsSplice(front: Cart, l: Line, back: Cart)
    ensures ItemCount(front + [l] + back) == ItemCount(front + back) + l.cantidad
    ensures MoneyTotal(front + [l] + back) == MoneyTotal(front + back) + Amount(l)
  {
    TotalsAppend(front + [l], back);
    TotalsAppend(front, [l]);
    TotalsAppend(front, back);
    TotalsSingle(l);
  }

  /** A cart is the lines before `i`, line `i`, and the lines after it. */
  lemma SplitAround(c: Cart, i: nat)
    requires i < |c|
    ensures c == c[..i] + [c[i]] + c[i + 1..]
  {
  }

  /** Changing one line's quantity moves the totals by that line's difference alone. */
  lemma TotalsWithQuantity(c: Cart, r: Cart, i: nat, q: int)
    requires OnlyQuantityChanged(c, r, i, q)
    ensures ItemCount(r) == ItemCount(c) - c[i].cantidad + q
    ensures MoneyTotal(r) == MoneyTotal(c) - Amount(c[i]) + Amount(r[i])
  {
    var front, back := c[..i], c[i + 1..];
    SplitAround(c, i);
    SplitAround(r, i);
    assert r[..i] == front && r[i + 1..] == back;
    TotalsSplice(front, c[i], back);
    TotalsSplice(front, r[i], back);
  }

  /** One unit more or less on a line changes its amount by one unit price. */
  lemma AmountStep(l: Line, d: int)
    requires d == 1 || d == -1
    ensures Amount(l.(cantidad := l.cantidad + d)) == Amount(l) + d * l.precio
  {
  }

  /** Removing line `i` takes exactly its quantity and its amount off the totals. */
  lemma TotalsRemoveAt(c: Cart, i: nat)
    requires i < |c|
    ensures ItemCount(RemoveAt(c, i)) == ItemCount(c) - c[i].cantidad
    ensures MoneyTotal(RemoveAt(c, i)) == MoneyTotal(c) - Amount(c[i])
  {
    var front, back := c[..i], c[i + 1..];
    SplitAround(c, i);
    assert RemoveAt(c, i) == front + back;
    TotalsSplice(front, c[i], back);
  }

  /** With positive quantities, the item count is at least the line count, and zero only for the empty cart. */
  lemma {:induction false} ItemCountBounds(c: Cart)
    requires QuantitiesPositive(c)
    ensures ItemCount(c) >= |c|
    ensures ItemCount(c) == 0 <==> c == []
    decreases |c|
  {
    if c != [] {
      ItemCountBounds(c[..|c| - 1]);
    }
  }

  /** With positive quantities and non-negative prices the money total is non-negative. */
  lemma {:induction false} MoneyTotalNonNegative(c: Cart)
    requires QuantitiesPositive(c)
    requires forall i :: 0 <= i < |c| ==> c[i].precio >= 0
    ensures MoneyTotal(c) >= 0
    decreases |c|
  {
    if c != [] {
      MoneyTotalNonNegative(c[..|c| - 1]);
    }
  }

  /** An add raises the item count by one and the money total by the touched line's stored price. */
  lemma AddRaisesTotals(c: Cart, nombre: string, precio: int, img: string)
    ensures var r := AddLine(c, nombre, precio, img);
      && ItemCount(r) == ItemCount(c) + 1
      && MoneyTotal(r) == MoneyTotal(c) + r[AddedAt(c, nombre)].precio
    ensures FindByName(c, nombre).Some? ==>
      AddLine(c, nombre, precio, img)[AddedAt(c, nombre)].precio == c[AddedAt(c, nombre)].precio
  {
    var r := AddLine(c, nombre, precio, img);
    var k := AddedAt(c, nombre);
    if FindByName(c, nombre).Some? {
      TotalsWithQuantity(c, r, k, c[k].cantidad + 1);
      AmountStep(c[k], 1);
      assert r[k] == c[k].(cantidad := c[k].cantidad + 1);
    } else {
      assert r == c + [r[k]];
      TotalsAppend(c, [r[k]]);
      TotalsSingle(r[k]);
      assert Amount(r[k]) == r[k].precio * 1;
    }
  }

  /** "+" on an existing line adds one unit to the count and one unit price to the total. */
  lemma SumarRaisesTotals(c: Cart, index: Index)
    requires Lookup(c, index).Some?
    ensures var r := ActualizarCantidad(c, index, Sumar);
      && ItemCount(r) == ItemCount(c) + 1
      && MoneyTotal(r) == MoneyTotal(c) + c[index.n].precio
  {
    var i := index.n;
    var r := ActualizarCantidad(c, index, Sumar);
    TotalsWithQuantity(c, r, i, c[i].cantidad + 1);
    AmountStep(c[i], 1);
    assert r[i] == c[i].(cantidad := c[i].cantidad + 1);
  }

  /** "-" on a line of quantity one drops the line, and with it one unit and one unit price. */
  lemma RestarDropsLine(c: Cart, index: Index)
    requires Lookup(c, index).Some? && c[index.n].cantidad == 1
    ensures var r := ActualizarCantidad(c, index, Restar);
      && ItemCount(r) == ItemCount(c) - 1
      && MoneyTotal(r) == MoneyTotal(c) - c[index.n].precio
  {
    var i := index.n;
    assert ActualizarCantidad(c, index, Restar) == RemoveAt(c, i);
    TotalsRemoveAt(c, i);
    assert Amount(c[i]) == c[i].precio * 1;
  }

  /** "-" on a line of quantity above one keeps the line with one unit less. */
  lemma RestarKeepsLine(c: Cart, index: Index)
    requires Lookup(c, index).Some? && c[index.n].cantidad > 1
    ensures var r := ActualizarCantidad(c, index, Restar);
      && ItemCount(r) == ItemCount(c) - 1
      && MoneyTotal(r) == MoneyTotal(c) - c[index.n].precio
  {
    var i := index.n;
    var r := ActualizarCantidad(c, index, Restar);
    TotalsWithQuantity(c, r, i, c[i].cantidad - 1);
    AmountStep(c[i], -1);
    assert r[i] == c[i].(cantidad := c[i].cantidad - 1);
  }

  /** "-" on a line of positive quantity takes one unit off the count and one unit price off the total. */
  lemma RestarLowersTotals(c: Cart, index: Index)
    requires Lookup(c, index).Some? && c[index.n].cantidad >= 1
    ensures var r := ActualizarCantidad(c, index, Restar);
      && ItemCount(r) == ItemCount(c) - 1
      && MoneyTotal(r) == MoneyTotal(c) - c[index.n].precio
  {
    if c[index.n].cantidad == 1 {
      RestarDropsLine(c, index);
    } else {
      RestarKeepsLine(c, index);
    }
  }

  /** Removing a line by index takes off its whole quantity and amount; a bad index changes nothing. */
  lemma EliminarLowersTotals(c: Cart, index: Index)
    ensures var r := EliminarDelCarrito(c, index);
      && (Lookup(c, index).Some? ==>
            && ItemCount(r) == ItemCount(c) - c[index.n].cantidad
            && MoneyTotal(r) == MoneyTotal(c) - Amount(c[index.n]))
      && (Lookup(c, index).None? ==> ItemCount(r) == ItemCount(c) && MoneyTotal(r) == MoneyTotal(c))
  {
    if Lookup(c, index).Some? {
      TotalsRemoveAt(c, index.n);
    }
  }

  /**
   * What `renderCarrito` computes from the cart. The badge text is only written
   * while the badge is shown (`None`: the old text is left in place).
   */
  datatype CartView = CartView(
    itemCount: int,
    total: int,
    badgeHidden: bool,
    badgeText: Option<int>,
    vaciarDisabled: bool,
    emptyNoticeShown: bool)

  /** The two `reduce` passes of `renderCarrito`, and the UI states derived from them. */
  method RenderCarrito(c: Cart) returns (v: CartView)
    ensures v.itemCount == ItemCount(c) && v.total == MoneyTotal(c)
    ensures v.badgeHidden <==> ItemCount(c) == 0
    ensures v.badgeText == if v.badgeHidden then None else Some(ItemCount(c))
    ensures v.vaciarDisabled <==> c == []
    ensures v.emptyNoticeShown <==> c == []
  {
    var totalItems := 0;
    var total := 0;
    var i := 0;
    while i < |c|
      invariant 0 <= i <= |c|
      invariant totalItems == ItemCount(c[..i])
      invariant total == MoneyTotal(c[..i])
    {
      assert c[..i + 1][..i] == c[..i];
      totalItems := totalItems + c[i].cantidad;
      total := total + Amount(c[i]);
      i := i + 1;
    }
    assert c[..i] == c;
    var hidden := totalItems == 0;
    v := CartView(totalItems, total, hidden, if hidden then None else Some(totalItems), |c| == 0, |c| == 0);
  }

  /** On a well-formed cart the badge hides, "Vaciar" disables and the empty notice shows together. */
  lemma BadgeAgreesWithVaciar(c: Cart)
    requires QuantitiesPositive(c)
    ensures ItemCount(c) == 0 <==> |c| == 0
  {
    ItemCountBounds(c);
  }

  /** Two adds of the same pizza to an empty cart: one line of quantity 2 whose line total is 15980. */
  lemma TwoPizzasMerge(img: string)
    ensures AddRepeatedly([], "Pizza Pepperoni", 7990, img, 2) == [Line("Pizza Pepperoni", 7990, 2, img)]
    ensures Amount(Line("Pizza Pepperoni", 7990, 2, img)) == 15980
  {
    AddRepeatedlyMerges([], "Pizza Pepperoni", 7990, img, 2);
  }

}
